=== FILE: README.md ===
# ALPHA rewards checker — verified model of the rewards logic

The rewards checker is a browser application. A user enters a ledger address
and sees how much of the rewards token (the USDC asset, id 31566704) the
ALPHA rewards wallet has paid to that address. All of its logic sits in
`client/src/lib/algorand.ts`, and it has three parts:

- **address validation** (`isValidAlgorandAddress`): an address is 58
  characters of the Base32 alphabet of section 6 of RFC 4648 (`A`-`Z`,
  `2`-`7`), in either case. The checksum is not verified.
- **transfer extraction** (`findUSDCTransfers`): a pre-order walk over a
  transaction and its inner transactions. It collects every asset transfer
  of the rewards token to the target address.
- **aggregation** (`checkRewards`): a do-while loop over the indexer's
  pages of the wallet's transactions. It keeps only the top-level
  transactions the wallet itself sent. Each found transfer becomes a flat
  record stamped with the outer transaction's round and time, and the loop
  keeps a running total. It stops at the first page without a following
  page. Any failed request turns the whole run into one generic error.

The Dafny project has four modules, one per concern:

- `Address` (`address.dfy`): upper-casing and both validators.
- `Indexer` (`indexer.dfy`): the shapes the indexer returns and the
  program's constants.
- `Transfers` (`transfers.dfy`): the tree walk and its reference
  definition. The reference flattens the tree in pre-order, then filters.
- `Rewards` (`rewards.dfy`): the records, the pagination, and the reference
  definition `Expected` of a whole run. It also holds the loop
  `CheckRewards`, which is proved equal to `Expected`.

The indexer is a finite sequence of responses. The i-th page request gets
the i-th response, which is either a page or a failure. No network is
involved. If the loop wants more pages than the sequence holds, the outcome
is `OutOfResponses`. The source would go on fetching in that case.

The validator upper-cases first and checks the length of the upper-cased
string. JavaScript's upper-casing uses the full Unicode case mapping, and
under it `ß` becomes `SS`. So a 57-character string can pass the check (see
Findings). `Address.IsValidAddressAsWritten` is the code as written.
`Address.IsValidAddress` applies the 58-character rule to the input itself.

The aggregation compares each receiver with the address as the user
entered it, after trimming. The validator, by contrast, ignores case. So an address
typed in lower case passes validation but matches no receiver.
`Transfers.CountIsMatchingNodes` states the consequence: the walk finds
nothing when no node of the tree names the target as receiver.

A run is a pure function of the address and the responses, so two runs
against the same ledger state give equal results.

The records are not sorted by time. They come in indexer page order, then
transaction order, then walk order, and the model keeps that order.

## Model

| member | source | states |
|---|---|---|
| `Address.ValidAddressCharacterization` | client/src/lib/algorand.ts:7-11 | A string is a valid address exactly when it has 58 characters and its upper-case form is 58 characters of `A`-`Z2`-`7` |
| `Address.Base32LetterCharacterization` | client/src/lib/algorand.ts:9-10 | The characters accepted in an address, listed: `A`-`Z`, `2`-`7`, `a`-`z`, and the two non-ASCII letters whose upper-case form is a single ASCII letter; nothing else |
| `Address.ValidatorScenarios` | client/src/lib/algorand.ts:9-10 | `abc` is rejected by the validator as written and by the 58-character one; `0`, `1`, `8`, `9` and punctuation are not address letters in either case |
| `Address.AsWrittenRejectsNonLetter` | client/src/lib/algorand.ts:8-10 | The validator as written rejects every string, of any length and whatever else it holds, that contains a character upper-casing to a single non-Base32 character: `0`, `1`, `8`, `9`, punctuation, white space, other scripts |
| `Address.AsWrittenRejectsForbidden` | client/src/lib/algorand.ts:9-10 | The validator as written rejects every string, of any length, that holds `0`, `1`, `8`, `9`, `-`, `+`, `=`, `/` or a space |
| `Address.Base32AddressAccepted` | client/src/lib/algorand.ts:9-10 | Every 58-character string of `A`-`Z2`-`7` is accepted by the validator as written and by the 58-character one |
| `Address.WalletIsValid` | client/src/lib/algorand.ts:2-11 | The rewards wallet's address is accepted by both validators |
| `Address.AsWrittenRejectsLonger` | client/src/lib/algorand.ts:9-10 | Every string longer than 58 characters is rejected by both validators |
| `Address.AsWrittenCaseInsensitive` | client/src/lib/algorand.ts:10 | The validator as written gives a string and its upper-case form the same verdict |
| `Address.ValidAddressCaseInsensitive` | client/src/lib/algorand.ts:10 | The 58-character validator accepts the upper-case form of every valid address. On inputs where no character expands under upper-casing, the verdict ignores case in both directions |
| `Address.ToUpperIdempotent` | client/src/lib/algorand.ts:10 | Upper-casing an upper-cased string changes nothing |
| `Address.ToUpperLength` | client/src/lib/algorand.ts:10 | Upper-casing keeps the length exactly when no character expands, and then works character by character |
| `Address.ValidatorsAgreeWithoutExpansion` | client/src/lib/algorand.ts:7-11 | The validator as written and the 58-character validator disagree only on strings holding a character that expands under upper-casing |
| `Address.AsWrittenAcceptsShortAddress` | client/src/lib/algorand.ts:9-10 | As written, `ß` followed by any 56 Base32 characters (57 characters) is accepted, and the 58-character validator rejects it |
| `Transfers.FindUsdcTransfers` | client/src/lib/algorand.ts:72-90 | Every transfer found is of the rewards token to the target; a matching node's own transfer comes before anything found below it |
| `Transfers.FindInList` | client/src/lib/algorand.ts:83-87 | The inner transactions' findings, concatenated in list order, are all rewards-token transfers to the target |
| `Transfers.FindIsPreOrderMatches` | client/src/lib/algorand.ts:72-90 | The walk equals the reference: the transfers of the matching nodes of the tree's pre-order flattening, in that order, each node at most once |
| `Transfers.CountIsMatchingNodes` | client/src/lib/algorand.ts:72-90 | The number of transfers found equals the number of matching nodes; none are found exactly when no node of the tree matches |
| `Transfers.NestedTransferFound` | client/src/lib/algorand.ts:82-87 | A matching transfer at any depth of the inner-transaction tree is among those found |
| `Transfers.MatchesMembership` | client/src/lib/algorand.ts:76-79 | The reference filter keeps exactly the nodes that transfer the rewards token to the target |
| `Rewards.StampAll` | client/src/lib/algorand.ts:111-118 | One record per found transfer, in order. Each carries that transfer, no inner transactions, the wallet as sender, type `axfer`, and the outer transaction's round and time |
| `Rewards.RecordsOfTxnShape` | client/src/lib/algorand.ts:104-122 | Transactions the wallet did not send yield nothing. The wallet's own yield one reward record per found transfer, in walk order, stamped with the outer round and time |
| `Rewards.ForeignSendersIgnored` | client/src/lib/algorand.ts:104-105 | A page whose top-level transactions were all sent by other accounts contributes no records, whatever their trees hold |
| `Rewards.AllRecordsAreRewardRecords` | client/src/lib/algorand.ts:111-120 | Every record of a run is a rewards-token transfer to the target, sent by the wallet, of type `axfer`, with no inner transactions |
| `Rewards.StopIndex` | client/src/lib/algorand.ts:99-129 | The loop stops at the first response that is a failure or a page whose cursor is absent or empty; no earlier response stops it |
| `Rewards.FetchCount` | client/src/lib/algorand.ts:99-129 | A run makes at least one request, and no more requests than there are responses |
| `Rewards.RequestTokensOfRun` | client/src/lib/algorand.ts:95-129 | The first request carries no cursor; each later request carries the non-empty cursor of the page before it |
| `Rewards.AppendTransfers` | client/src/lib/algorand.ts:111-122 | Appends one stamped record per transfer, in order, and the running total stays the sum of the records' amounts |
| `Rewards.CollectTxn` | client/src/lib/algorand.ts:105-123 | Appends exactly the records of one top-level transaction and keeps the total equal to the sum |
| `Rewards.CollectPage` | client/src/lib/algorand.ts:102-126 | Appends the page's records in transaction order, nothing for a page without a transaction list, and keeps the total equal to the sum |
| `Rewards.CheckRewards` | client/src/lib/algorand.ts:93-140 | The loop's outcome equals the reference run. A completed result's total is the sum of its records' amounts, its count is their number, and every record is a reward record for the address. A failure carries only the generic message. The requests carry exactly the expected cursors, one per fetch |
| `Rewards.ExpectedWellFormed` | client/src/lib/algorand.ts:131-135 | A completed run's total is the sum of its records' amounts and its count their number |
| `Rewards.FailureIsAllOrNothing` | client/src/lib/algorand.ts:136-139 | A run fails exactly when a request fails before pagination has ended, and then yields only the generic message, with no partial result |
| `Rewards.PaginationStopsAfterLastPage` | client/src/lib/algorand.ts:99-129 | N pages, each but the last naming a following page: exactly N requests, later responses never read, and the records of all N pages concatenated in page order |
| `Rewards.EmptyPageIsNotAnError` | client/src/lib/algorand.ts:102-135 | A single final page with no transactions completes with total 0, no records and count 0, not an error |
| `Rewards.TwoNestedTransfersScenario` | client/src/lib/algorand.ts:93-135 | One wallet transaction paying 5,000,000 and 3,000,000 through inner transactions gives total 8,000,000 and count 2, both records stamped with the outer round and time |

## Left out

- `fetchTransactions` (client/src/lib/algorand.ts:50-69) is modelled only by its result, a page or a failure. The model leaves out URL building, the `limit=1000` parameter, `fetch` and JSON decoding, because they are network I/O. The cursor each request would carry is still returned by `Rewards.CheckRewards`.
- The model's page and transaction types carry every field, so loosely shaped JSON bodies are not modelled. In the source, a transaction with no `sender` is skipped (algorand.ts:105), and one without an asset transfer, `asset-id` or `receiver` does not match (algorand.ts:76-78). A matching transfer with no `amount` turns the total into NaN (algorand.ts:121). A transaction with no `confirmed-round` gives a record carrying `undefined` (algorand.ts:114). A JSON body such as `{}` completes with an empty result (algorand.ts:102, 128). None of these throws. A body that is not JSON, a JSON `null` body (read at algorand.ts:102), a `null` entry in a list, or a truthy `transactions` or `inner-txns` that is not a list (a number, say; algorand.ts:104, 84) throws; the `catch` turns that into the generic error, and the model folds these into a failed response.
- `Address.ValidAddressCharacterization`: the corrected rule fixes only the length. Like the source, it still accepts dotless `ı` (U+0131) and long `ſ` (U+017F), which upper-case to `I` and `S` (`Address.Base32LetterCharacterization`). Restricting the letters to ASCII would change which 58-character strings the program accepts, not just fix the miscount, so the model keeps the source's alphabet.
- `formatUSDC` (client/src/lib/algorand.ts:14-16) is left out: it uses floating-point division and `toFixed(2)` formatting.
- Amounts and the running total are unbounded naturals. JavaScript `number` precision of the sum is not modelled.
- `console.error`, and the suspension at each `await`, do not change the sequential result, so they are left out.
- An absent `inner-txns` list and an empty one are the same value in the model. The walk treats both alike, and stamped records have an empty list where the source omits the field.
- `current-round` of a page is carried but never read, as in the source.
- `Address.UpperChar` spells out the upper-case mapping only for the characters whose upper-case form consists only of Base32 characters. Every other character stays as it is. That gives the same verdict, since such a character is not in the alphabet and its real upper-case form holds a character outside it (U+0149 becomes `ʼN`, for instance). Strings are sequences of Unicode scalar values, not UTF-16 code units. The two differ only for characters outside the Basic Multilingual Plane, which are rejected either way.
- An indexer that never stops returning a following page keeps the source looping forever. With a finite list of responses, the model ends such a run with `OutOfResponses`.
- The React components, the page wiring and the address form's trimming are presentation code and are left out. So is the build script. The form calls the validator, which is modelled above.
- The sender, asset and type narrowing of the indexer query is not part of this model: the source's request asks only for the wallet's transactions, and all filtering happens in the client as modelled.

## Findings

| source | as written | input that shows it | evidently intended | confidence | as-written member | corrected member |
|---|---|---|---|---|---|---|
| client/src/lib/algorand.ts:9-10 | The `{58}` length test runs on `address.toUpperCase()`, and full Unicode upper-casing turns `ß` into `SS` and the ligatures U+FB00-U+FB06 into two or three letters | `ß` followed by 56 `A`s: 57 characters, accepted | Exactly 58 characters as entered, each upper-casing to a single Base32 character; the address form's own message says "must be 58 characters" | medium; not executed | `Address.AsWrittenAcceptsShortAddress` | `Address.ValidAddressCharacterization` |

=== FILE: address.dfy ===
/**
  Address format check done before any indexer query.

  A ledger address is 58 characters of the Base32 alphabet of section 6 of
  RFC 4648 (`A`-`Z`, `2`-`7`), compared case-insensitively; the checksum
  carried by the address is not verified.

  The validator as written upper-cases the whole string first and checks the
  length of the upper-cased string. JavaScript's upper-casing is the full
  Unicode case mapping, under which a few characters expand to two or three
  letters (`ß` becomes `SS`), so a 57-character input can pass.
  `IsValidAddressAsWritten` models that behaviour, and `IsValidAddress` is
  the check with the length taken on the input itself.
 */
module Address {
  import Indexer

  /** Number of characters of an encoded address. */
  const AddressLength: nat := 58

  /** Membership in the Base32 alphabet `A`-`Z`, `2`-`7`. */
  predicate IsBase32Char(c: char) {
    ('A' <= c <= 'Z') || ('2' <= c <= '7')
  }

  predicate IsBase32String(s: string) {
    forall i :: 0 <= i < |s| ==> IsBase32Char(s[i])
  }

  /**
    The upper-case form of one character under the full Unicode case mapping,
    for every character whose upper-case form consists only of Base32
    characters: the ASCII lower-case letters, dotless i, long s, sharp s and
    the Latin ligatures U+FB00-U+FB06. Any other character is kept as it is;
    that preserves the validator's verdict, because such a character is not
    in the Base32 alphabet and its true upper-case form holds a character
    outside it.
   */
  function UpperChar(c: char): (u: string)
    ensures 1 <= |u| <= 3
    ensures IsBase32Char(c) ==> u == [c]
    ensures 'a' <= c <= 'z' ==> u == [(c as int - 32) as char]
  {
    if 'a' <= c <= 'z' then [(c as int - 32) as char]
    else if c == '\U{0131}' then "I"     // dotless i
    else if c == '\U{017F}' then "S"     // long s
    else if c == '\U{00DF}' then "SS"    // sharp s
    else if c == '\U{FB00}' then "FF"
    else if c == '\U{FB01}' then "FI"
    else if c == '\U{FB02}' then "FL"
    else if c == '\U{FB03}' then "FFI"
    else if c == '\U{FB04}' then "FFL"
    else if c == '\U{FB05}' then "ST"
    else if c == '\U{FB06}' then "ST"
    else [c]
  }

  /** String upper-casing, character by character. */
  function ToUpper(s: string): (u: string)
    ensures |u| >= |s|
  {
    if |s| == 0 then [] else UpperChar(s[0]) + ToUpper(s[1..])
  }

  /** The validator as written: upper-case, then test the whole result against `[A-Z2-7]{58}`. */
  predicate IsValidAddressAsWritten(s: string) {
    var u := ToUpper(s);
    |u| == AddressLength && IsBase32String(u)
  }

  /** A character that upper-cases to exactly one Base32 character. */
  predicate IsBase32Letter(c: char) {
    var u := UpperChar(c);
    |u| == 1 && IsBase32Char(u[0])
  }

  /** The validator with the length taken on the input: 58 characters, each a Base32 character in either case. */
  predicate IsValidAddress(s: string) {
    |s| == AddressLength && forall i :: 0 <= i < |s| ==> IsBase32Letter(s[i])
  }

  // ---------------------------------------------------------------------------
  // Upper-casing

  lemma {:induction false} ToUpperAppend(a: string, b: string)
    ensures ToUpper(a + b) == ToUpper(a) + ToUpper(b)
    decreases |a|
  {
    if |a| == 0 {
      assert a + b == b;
    } else {
      assert (a + b)[0] == a[0];
      assert (a + b)[1..] == a[1..] + b;
      ToUpperAppend(a[1..], b);
    }
  }

  /** A string that is already in Base32 is its own upper-case form. */
  lemma {:induction false} ToUpperOfBase32(s: string)
    requires IsBase32String(s)
    ensures ToUpper(s) == s
    decreases |s|
  {
    if |s| > 0 {
      ToUpperOfBase32(s[1..]);
      assert s == [s[0]] + s[1..];
    }
  }

  /** Every character `UpperChar` produces is its own upper-case form. */
  lemma UpperCharIsUpper(c: char)
    ensures ToUpper(UpperChar(c)) == UpperChar(c)
  {
    var u := UpperChar(c);
    if |u| == 1 {
      assert ToUpper(u) == UpperChar(u[0]) + ToUpper(u[1..]);
    } else if |u| == 2 {
      assert ToUpper(u) == UpperChar(u[0]) + (UpperChar(u[1]) + ToUpper(u[2..]));
    } else {
      assert ToUpper(u) == UpperChar(u[0]) + (UpperChar(u[1]) + (UpperChar(u[2]) + ToUpper(u[3..])));
    }
  }

  /** Upper-casing is idempotent. */
  lemma {:induction false} ToUpperIdempotent(s: string)
    ensures ToUpper(ToUpper(s)) == ToUpper(s)
    decreases |s|
  {
    if |s| > 0 {
      ToUpperAppend(UpperChar(s[0]), ToUpper(s[1..]));
      UpperCharIsUpper(s[0]);
      ToUpperIdempotent(s[1..]);
    }
  }

  /**
    Upper-casing keeps the length exactly when no character expands, and then
    the i-th character of the result is the upper-case form of the i-th input character.
   */
  lemma {:induction false} ToUpperLength(s: string)
    ensures |ToUpper(s)| == |s| <==> forall i :: 0 <= i < |s| ==> |UpperChar(s[i])| == 1
    ensures |ToUpper(s)| == |s| ==> forall i :: 0 <= i < |s| ==> ToUpper(s)[i] == UpperChar(s[i])[0]
    decreases |s|
  {
    if |s| > 0 {
      ToUpperLength(s[1..]);
      var u := ToUpper(s);
      assert u == UpperChar(s[0]) + ToUpper(s[1..]);
      if |u| == |s| {
        assert |ToUpper(s[1..])| == |s[1..]|;
        forall i | 0 <= i < |s|
          ensures |UpperChar(s[i])| == 1 && u[i] == UpperChar(s[i])[0]
        {
          if i > 0 {
            assert s[i] == s[1..][i - 1];
          }
        }
      } else if |UpperChar(s[0])| == 1 {
        var j :| 0 <= j < |s[1..]| && |UpperChar(s[1..][j])| != 1;
        assert s[j + 1] == s[1..][j];
      }
    }
  }

  // ---------------------------------------------------------------------------
  // The validator

  /**
    The address rule: a string is a valid address exactly when it has 58
    characters and its upper-case form is 58 Base32 characters.
   */
  lemma ValidAddressCharacterization(s: string)
    ensures IsValidAddress(s) <==> |s| == AddressLength && IsValidAddressAsWritten(s)
  {
    ToUpperLength(s);
    var u := ToUpper(s);
    if IsValidAddress(s) {
      assert |u| == |s|;
      forall i | 0 <= i < |u|
        ensures IsBase32Char(u[i])
      {
        assert IsBase32Letter(s[i]);
      }
    }
    if |s| == AddressLength && IsValidAddressAsWritten(s) {
      forall i | 0 <= i < |s|
        ensures IsBase32Letter(s[i])
      {
        assert IsBase32Char(u[i]);
      }
    }
  }

  /** The letters accepted in an address, in either case, listed out. */
  lemma Base32LetterCharacterization(c: char)
    ensures IsBase32Letter(c) <==>
              IsBase32Char(c) || ('a' <= c <= 'z') || c == '\U{0131}' || c == '\U{017F}'
  {
  }

  /** Corrected validator: the verdict ignores case. */
  lemma ValidAddressCaseInsensitive(s: string)
    ensures IsValidAddress(s) ==> IsValidAddress(ToUpper(s))
    ensures (forall i :: 0 <= i < |s| ==> |UpperChar(s[i])| == 1) ==>
              (IsValidAddress(s) <==> IsValidAddress(ToUpper(s)))
  {
    ToUpperIdempotent(s);
    ToUpperLength(s);
    ToUpperLength(ToUpper(s));
    ValidAddressCharacterization(s);
    ValidAddressCharacterization(ToUpper(s));
  }

  /** The validator as written gives a string and its upper-case form the same verdict. */
  lemma AsWrittenCaseInsensitive(s: string)
    ensures IsValidAddressAsWritten(s) <==> IsValidAddressAsWritten(ToUpper(s))
  {
    ToUpperIdempotent(s);
  }

  /**
    The two validators differ only on inputs with an expanding character:
    without one they give the same verdict.
   */
  lemma ValidatorsAgreeWithoutExpansion(s: string)
    requires forall i :: 0 <= i < |s| ==> |UpperChar(s[i])| == 1
    ensures IsValidAddress(s) <==> IsValidAddressAsWritten(s)
  {
    ToUpperLength(s);
    ValidAddressCharacterization(s);
  }

  /**
    The validator as written accepts 57-character strings: a sharp s
    followed by any 56 Base32 characters upper-cases to 58 Base32 characters.
   */
  lemma AsWrittenAcceptsShortAddress(tail: string)
    requires |tail| == 56 && IsBase32String(tail)
    ensures var s := "\U{00DF}" + tail;
            |s| == 57 && IsValidAddressAsWritten(s) && !IsValidAddress(s)
  {
    ToUpperAppend("\U{00DF}", tail);
    ToUpperOfBase32(tail);
    assert ToUpper("\U{00DF}") == "SS";
    assert IsBase32String("SS" + tail);
  }

  /**
    Scenarios: `abc` is rejected by both validators, and digits outside
    `2`-`7` and punctuation are not address letters in any case.
   */
  lemma ValidatorScenarios()
    ensures !IsValidAddress("abc") && !IsValidAddressAsWritten("abc")
    ensures forall c :: c in "0189-+=/ " ==> !IsBase32Letter(c)
  {
  }

  /**
    The validator as written rejects every string, whatever its length, that
    holds a character which upper-cases to a single character outside the
    Base32 alphabet: `0`, `1`, `8`, `9`, punctuation, white space, letters
    of other scripts.
   */
  lemma AsWrittenRejectsNonLetter(s: string, i: nat)
    requires i < |s| && !IsBase32Letter(s[i]) && |UpperChar(s[i])| == 1
    ensures !IsValidAddressAsWritten(s)
  {
    var c := s[i];
    var pre, post := s[..i], s[i + 1..];
    assert s == pre + ([c] + post);
    ToUpperAppend(pre, [c] + post);
    ToUpperAppend([c], post);
    var d := UpperChar(c)[0];
    assert ToUpper([c]) == UpperChar(c) + ToUpper([]);
    assert ToUpper([c]) == [d];
    var u := ToUpper(s);
    assert u == ToUpper(pre) + ([d] + ToUpper(post));
    assert u[|ToUpper(pre)|] == d;
  }

  /** The validator as written rejects every string holding `0`, `1`, `8`, `9`, `-`, `+`, `=`, `/` or a space. */
  lemma AsWrittenRejectsForbidden(s: string, i: nat)
    requires i < |s| && s[i] in "0189-+=/ "
    ensures !IsValidAddressAsWritten(s)
  {
    ValidatorScenarios();
    AsWrittenRejectsNonLetter(s, i);
  }

  lemma Base32Concat(a: string, b: string)
    requires IsBase32String(a) && IsBase32String(b)
    ensures IsBase32String(a + b)
  {
  }

  /** Every 58-character Base32 string is an address for both validators. */
  lemma Base32AddressAccepted(s: string)
    requires |s| == AddressLength && IsBase32String(s)
    ensures IsValidAddressAsWritten(s) && IsValidAddress(s)
  {
    ToUpperOfBase32(s);
    ValidAddressCharacterization(s);
  }

  /** Scenario: the rewards wallet's own address is accepted. */
  lemma WalletIsValid()
    ensures IsValidAddressAsWritten(Indexer.AlphaRewardsWallet) && IsValidAddress(Indexer.AlphaRewardsWallet)
  {
    var a, b := "XUIBTKHE7ISNMCLJWXUOOK6X3OCP3G", "VV3Z4J33PHMYX6XXK3XWN3KDMMNI";
    assert IsBase32String(a);
    assert IsBase32String(b);
    Base32Concat(a, b);
    Base32AddressAccepted(a + b);
  }

  /** Any string longer than 58 characters is rejected as written: upper-casing never shortens. */
  lemma AsWrittenRejectsLonger(s: string)
    requires |s| > AddressLength
    ensures !IsValidAddressAsWritten(s) && !IsValidAddress(s)
  {
  }
}

=== FILE: indexer.dfy ===
/**
  The shapes the ledger indexer returns and the constants of the rewards
  program: the rewards wallet that sends the payouts and the asset id of
  the token it pays in.
 */
module Indexer {

  datatype Option<+T> = None | Some(value: T)

  /** The rewards program's sending wallet, written in two halves so that proofs can inspect each. */
  const AlphaRewardsWallet: string := "XUIBTKHE7ISNMCLJWXUOOK6X3OCP3G" + "VV3Z4J33PHMYX6XXK3XWN3KDMMNI"

  /** Asset id of the token the rewards are paid in. */
  const UsdcAssetId: nat := 31566704

  /** Transaction type of an asset transfer. */
  const AssetTransferType: string := "axfer"

  /** The asset-transfer part of a transaction; amounts are in the token's smallest unit. */
  datatype AssetTransfer = AssetTransfer(amount: nat, assetId: nat, receiver: string)

  /**
    One transaction as the indexer reports it. A transaction made by a
    contract call carries the transactions it issued in `inner`, so a
    transaction is the root of a finite tree. An absent inner-transaction
    list and an empty one are the same here: the walk treats both alike.
   */
  datatype Txn = Txn(
    transfer: Option<AssetTransfer>,
    inner: seq<Txn>,
    confirmedRound: nat,
    roundTime: nat,
    sender: string,
    txType: string)

  /** One page of results; `nextToken` is the opaque cursor of the following page. */
  datatype Page = Page(
    transactions: Option<seq<Txn>>,
    nextToken: Option<string>,
    currentRound: nat)

  /**
    What one page request yields: the page, or a failure (an unsuccessful
    HTTP status, a transport error or an unreadable body), with its message.
   */
  datatype FetchResult = Fetched(page: Page) | FetchFailed(reason: string)

  /** The aggregate handed to the presentation layer. */
  datatype RewardsData = RewardsData(totalAmount: nat, transactions: seq<Txn>, count: nat)
}

=== FILE: rewards.dfy ===
/**
  The rewards check: page through the rewards wallet's transactions at the
  indexer, keep the ones the wallet itself sent, turn every rewards-token
  transfer to the target found in their trees into a flat record stamped
  with the outer transaction's round and time, and keep a running total.

  The indexer is a finite sequence of responses: the i-th page request is
  answered by the i-th element. `Expected` is the reference definition of a
  run; `CheckRewards` is the loop and is proved to agree with it.
 */
module Rewards {
  import opened Indexer
  import opened Transfers

  /** The one message every failed run reports, whatever went wrong. */
  const FetchErrorMessage: string := "Failed to fetch transaction data. Please try again later."

  /**
    How a run ends: with the aggregate, with the generic error, or still
    wanting another page when the given responses are used up.
   */
  datatype Outcome = Completed(data: RewardsData) | Failed(message: string) | OutOfResponses

  // ---------------------------------------------------------------------------
  // Records

  /** The flat record made for a transfer found in the tree of `outer`. */
  function Stamp(outer: Txn, t: AssetTransfer): Txn {
    Txn(Some(t), [], outer.confirmedRound, outer.roundTime, AlphaRewardsWallet, AssetTransferType)
  }

  /** What a record of a run looks like: a rewards-token transfer to `target`, sent by the wallet, with no inner transactions. */
  predicate IsRewardRecord(r: Txn, target: string) {
    && r.transfer.Some?
    && IsTransferTo(r.transfer.value, target)
    && r.inner == []
    && r.sender == AlphaRewardsWallet
    && r.txType == AssetTransferType
  }

  /** The amount a record carries. */
  function AmountOf(r: Txn): nat {
    if r.transfer.Some? then r.transfer.value.amount else 0
  }

  /** Sum of the amounts of `records`. */
  function TotalAmount(records: seq<Txn>): nat {
    if |records| == 0 then 0
    else TotalAmount(records[..|records| - 1]) + AmountOf(records[|records| - 1])
  }

  /** One record per transfer in `found`, each stamped with the round and time of `outer`. */
  function StampAll(outer: Txn, found: seq<AssetTransfer>): (r: seq<Txn>)
    ensures |r| == |found|
    ensures forall k :: 0 <= k < |r| ==>
              r[k].transfer == Some(found[k]) && r[k].inner == [] &&
              r[k].sender == AlphaRewardsWallet && r[k].txType == AssetTransferType &&
              r[k].confirmedRound == outer.confirmedRound && r[k].roundTime == outer.roundTime
  {
    seq(|found|, k requires 0 <= k < |found| => Stamp(outer, found[k]))
  }

  /**
    The records one top-level transaction yields: one per transfer found in
    its tree, in walk order, when the wallet sent it; none otherwise.
   */
  function RecordsOfTxn(tx: Txn, target: string): seq<Txn> {
    if tx.sender == AlphaRewardsWallet then StampAll(tx, FindUsdcTransfers(tx, target)) else []
  }

  /**
    Only transactions the wallet sent contribute; each of their found
    transfers, in order, becomes one reward record for the target that
    carries the outer transaction's round and time.
   */
  lemma RecordsOfTxnShape(tx: Txn, target: string)
    ensures tx.sender != AlphaRewardsWallet ==> RecordsOfTxn(tx, target) == []
    ensures tx.sender == AlphaRewardsWallet ==>
              |RecordsOfTxn(tx, target)| == |FindUsdcTransfers(tx, target)| &&
              forall k :: 0 <= k < |RecordsOfTxn(tx, target)| ==>
                RecordsOfTxn(tx, target)[k].transfer == Some(FindUsdcTransfers(tx, target)[k])
    ensures forall k :: 0 <= k < |RecordsOfTxn(tx, target)| ==>
              IsRewardRecord(RecordsOfTxn(tx, target)[k], target) &&
              RecordsOfTxn(tx, target)[k].confirmedRound == tx.confirmedRound &&
              RecordsOfTxn(tx, target)[k].roundTime == tx.roundTime
  {
  }

  /** The records of a list of top-level transactions, in list order. */
  function PageRecords(txs: seq<Txn>, target: string): seq<Txn>
  {
    if |txs| == 0 then []
    else PageRecords(txs[..|txs| - 1], target) + RecordsOfTxn(txs[|txs| - 1], target)
  }

  /** The records one response contributes; a page without a transaction list contributes none. */
  function RecordsOfResponse(res: FetchResult, target: string): seq<Txn>
  {
    match res
    case FetchFailed(_) => []
    case Fetched(page) =>
      match page.transactions
      case None => []
      case Some(txs) => PageRecords(txs, target)
  }

  /** The records of a run of responses, concatenated in page order. */
  function AllRecords(responses: seq<FetchResult>, target: string): seq<Txn>
  {
    if |responses| == 0 then []
    else AllRecords(responses[..|responses| - 1], target) + RecordsOfResponse(responses[|responses| - 1], target)
  }

  /** Every record of a run is a reward record for the target. */
  lemma {:induction false} PageRecordsAreRewardRecords(txs: seq<Txn>, target: string)
    ensures forall k :: 0 <= k < |PageRecords(txs, target)| ==> IsRewardRecord(PageRecords(txs, target)[k], target)
    decreases |txs|
  {
    if |txs| > 0 {
      PageRecordsAreRewardRecords(txs[..|txs| - 1], target);
      RecordsOfTxnShape(txs[|txs| - 1], target);
    }
  }

  lemma {:induction false} AllRecordsAreRewardRecords(responses: seq<FetchResult>, target: string)
    ensures forall k :: 0 <= k < |AllRecords(responses, target)| ==> IsRewardRecord(AllRecords(responses, target)[k], target)
    decreases |responses|
  {
    if |responses| > 0 {
      AllRecordsAreRewardRecords(responses[..|responses| - 1], target);
      var last := responses[|responses| - 1];
      if last.Fetched? && last.page.transactions.Some? {
        PageRecordsAreRewardRecords(last.page.transactions.value, target);
      }
    }
  }

  // ---------------------------------------------------------------------------
  // Pagination

  /** A page that names a following page: its cursor is present and non-empty. */
  predicate HasMore(p: Page) {
    p.nextToken.Some? && p.nextToken.value != ""
  }

  /** A response after which the loop fetches nothing more. */
  predicate Stops(res: FetchResult) {
    res.FetchFailed? || !HasMore(res.page)
  }

  /** Index of the first response that stops the loop, if there is one. */
  function StopIndex(responses: seq<FetchResult>): (r: Option<nat>)
    ensures r.Some? ==>
              r.value < |responses| && Stops(responses[r.value]) &&
              forall j :: 0 <= j < r.value ==> !Stops(responses[j])
    ensures r.None? ==> forall j :: 0 <= j < |responses| ==> !Stops(responses[j])
  {
    if |responses| == 0 then None
    else if Stops(responses[0]) then Some(0)
    else match StopIndex(responses[1..])
      case None => None
      case Some(i) => Some(i + 1)
  }

  /** None of the first `i` responses stops the loop. */
  predicate NoStopBefore(responses: seq<FetchResult>, i: nat)
    requires i <= |responses|
  {
    forall j :: 0 <= j < i ==> !Stops(responses[j])
  }

  lemma NoStopBeforeStep(responses: seq<FetchResult>, i: nat)
    requires i < |responses| && NoStopBefore(responses, i) && !Stops(responses[i])
    ensures NoStopBefore(responses, i + 1)
  {
  }

  /** The first stopping response is the only candidate for `StopIndex`. */
  lemma StopIndexIs(responses: seq<FetchResult>, i: nat)
    requires i < |responses| && Stops(responses[i])
    requires NoStopBefore(responses, i)
    ensures StopIndex(responses) == Some(i)
  {
  }

  lemma StopIndexNone(responses: seq<FetchResult>)
    requires NoStopBefore(responses, |responses|)
    ensures StopIndex(responses) == None
  {
  }

  /** Number of page requests a run makes against `responses`. */
  function FetchCount(responses: seq<FetchResult>): (n: nat)
    ensures n <= |responses|
    ensures |responses| > 0 ==> n >= 1
  {
    match StopIndex(responses)
    case None => |responses|
    case Some(i) => i + 1
  }

  /** The cursor a response hands on, if it is a page. */
  function TokenOf(res: FetchResult): Option<string> {
    if res.Fetched? then res.page.nextToken else None
  }

  /**
    The cursors sent with the first `n` page requests: none with the first,
    and with each later one the cursor of the response before it.
   */
  function RequestTokens(responses: seq<FetchResult>, n: nat): (r: seq<Option<string>>)
    requires n <= |responses| + 1
    ensures |r| == n
  {
    if n == 0 then []
    else RequestTokens(responses, n - 1) + [if n == 1 then None else TokenOf(responses[n - 2])]
  }

  /**
    The cursors of a run: the first request carries none, and each later
    request carries the non-empty cursor of the page before it.
   */
  lemma {:induction false} RequestTokensOfRun(responses: seq<FetchResult>)
    ensures var r := RequestTokens(responses, FetchCount(responses));
            (|r| > 0 ==> r[0] == None) &&
            forall j :: 0 < j < |r| ==>
              responses[j - 1].Fetched? && HasMore(responses[j - 1].page) &&
              r[j] == responses[j - 1].page.nextToken
  {
    var n := FetchCount(responses);
    var r := RequestTokens(responses, n);
    RequestTokensPrefix(responses, n);
    assert forall k :: 0 <= k && k + 1 < n ==> !Stops(responses[k]);
  }

  lemma {:induction false} RequestTokensPrefix(responses: seq<FetchResult>, n: nat)
    requires n <= |responses| + 1
    ensures forall j :: 0 <= j < n ==>
              RequestTokens(responses, n)[j] == if j == 0 then None else TokenOf(responses[j - 1])
    decreases n
  {
    if n > 0 {
      RequestTokensPrefix(responses, n - 1);
    }
  }

  /** The aggregate of a list of records: its total and its count. */
  function Summarize(records: seq<Txn>): RewardsData {
    RewardsData(TotalAmount(records), records, |records|)
  }

  /**
    Reference definition of a run: the loop stops at the first failure or
    the first page without a following page. A failure there fails the
    whole run; otherwise the result summarizes the records of every page up
    to and including that one.
   */
  function Expected(responses: seq<FetchResult>, target: string): Outcome {
    match StopIndex(responses)
    case None => OutOfResponses
    case Some(i) =>
      if responses[i].FetchFailed? then Failed(FetchErrorMessage)
      else Completed(Summarize(AllRecords(responses[..i + 1], target)))
  }

  /** The aggregate invariant: the total is the sum of the records' amounts and the count is their number. */
  predicate Consistent(d: RewardsData) {
    d.totalAmount == TotalAmount(d.transactions) && d.count == |d.transactions|
  }

  // ---------------------------------------------------------------------------
  // Properties of a run

  /**
    A run fails exactly when some request fails before any page has ended
    the pagination, and then it reports only the generic message: no
    partial aggregate is returned.
   */
  lemma FailureIsAllOrNothing(responses: seq<FetchResult>, target: string)
    ensures Expected(responses, target).Failed? <==>
              exists j :: 0 <= j < |responses| && responses[j].FetchFailed? && NoStopBefore(responses, j)
    ensures Expected(responses, target).Failed? ==> Expected(responses, target) == Failed(FetchErrorMessage)
  {
    if j :| 0 <= j < |responses| && responses[j].FetchFailed? && NoStopBefore(responses, j) {
      StopIndexIs(responses, j);
    }
  }

  /** The responses of a run in which every request succeeds. */
  function AsResponses(pages: seq<Page>): (r: seq<FetchResult>)
    ensures |r| == |pages|
    ensures forall k :: 0 <= k < |r| ==> r[k] == Fetched(pages[k])
  {
    seq(|pages|, k requires 0 <= k < |pages| => Fetched(pages[k]))
  }

  /**
    Pagination: when every page but the last names a following page and the
    last does not, the run makes exactly one request per page, never looks
    at any later response, and summarizes the records of all pages in page order.
   */
  lemma PaginationStopsAfterLastPage(pages: seq<Page>, rest: seq<FetchResult>, target: string)
    requires |pages| >= 1
    requires forall k :: 0 <= k < |pages| - 1 ==> HasMore(pages[k])
    requires !HasMore(pages[|pages| - 1])
    ensures FetchCount(AsResponses(pages) + rest) == |pages|
    ensures Expected(AsResponses(pages) + rest, target) == Completed(Summarize(AllRecords(AsResponses(pages), target)))
  {
    var rs := AsResponses(pages) + rest;
    StopIndexIs(rs, |pages| - 1);
    assert rs[..|pages|] == AsResponses(pages);
  }

  /**
    A run that ends on its first page, and that page lists no transactions,
    completes with total 0 and count 0: an empty result is not an error.
   */
  lemma EmptyPageIsNotAnError(responses: seq<FetchResult>, target: string)
    requires |responses| > 0 && responses[0].Fetched? && !HasMore(responses[0].page)
    requires responses[0].page.transactions == None || responses[0].page.transactions == Some([])
    ensures Expected(responses, target) == Completed(RewardsData(0, [], 0))
  {
    StopIndexIs(responses, 0);
    AllRecordsStep(responses, 0, target);
    assert RecordsOfResponse(responses[0], target) == [];
  }

  /**
    Top-level transactions the wallet did not send contribute nothing, even
    when their trees hold transfers to the target.
   */
  lemma {:induction false} ForeignSendersIgnored(txs: seq<Txn>, target: string)
    requires forall k :: 0 <= k < |txs| ==> txs[k].sender != AlphaRewardsWallet
    ensures PageRecords(txs, target) == []
    decreases |txs|
  {
    if |txs| > 0 {
      ForeignSendersIgnored(txs[..|txs| - 1], target);
    }
  }

  /**
    Scenario: one page, no following page, holding one transaction of the
    wallet whose inner transactions pay the target 5,000,000 and 3,000,000
    units. The run completes with total 8,000,000 and count 2, both records
    stamped with the outer transaction's round and time.
   */
  lemma TwoNestedTransfersScenario(target: string, round: nat, time: nat)
    ensures
      var a := AssetTransfer(5000000, UsdcAssetId, target);
      var b := AssetTransfer(3000000, UsdcAssetId, target);
      var outer := Txn(None, [Txn(Some(a), [], round, time, "app", AssetTransferType),
                              Txn(Some(b), [], round, time, "app", AssetTransferType)],
                       round, time, AlphaRewardsWallet, "appl");
      var page := Page(Some([outer]), None, round);
      Expected([Fetched(page)], target) == Completed(RewardsData(8000000, [Stamp(outer, a), Stamp(outer, b)], 2))
  {
    var a := AssetTransfer(5000000, UsdcAssetId, target);
    var b := AssetTransfer(3000000, UsdcAssetId, target);
    var ta := Txn(Some(a), [], round, time, "app", AssetTransferType);
    var tb := Txn(Some(b), [], round, time, "app", AssetTransferType);
    var outer := Txn(None, [ta, tb], round, time, AlphaRewardsWallet, "appl");
    var page := Page(Some([outer]), None, round);
    var rs := [Fetched(page)];
    assert FindInList([], target) == [];
    assert FindUsdcTransfers(ta, target) == [a];
    assert FindUsdcTransfers(tb, target) == [b];
    assert [tb][1..] == [];
    assert FindInList([tb], target) == [b];
    assert [ta, tb][1..] == [tb];
    assert FindInList([ta, tb], target) == [a, b];
    assert FindUsdcTransfers(outer, target) == [a, b];
    var recs := [Stamp(outer, a), Stamp(outer, b)];
    assert RecordsOfTxn(outer, target) == recs;
    assert [outer][..0] == [];
    assert PageRecords([outer], target) == recs;
    StopIndexIs(rs, 0);
    assert rs[..1] == rs;
    assert rs[..1][..0] == [];
    assert AllRecords(rs, target) == recs;
    assert recs[..1] == [Stamp(outer, a)];
    assert recs[..1][..0] == [];
    assert TotalAmount(recs[..1]) == 5000000;
    assert TotalAmount(recs) == 8000000;
  }

  // ---------------------------------------------------------------------------
  // The loop

  lemma TotalAmountAppendOne(records: seq<Txn>, r: Txn)
    ensures TotalAmount(records + [r]) == TotalAmount(records) + AmountOf(r)
  {
    assert (records + [r])[..|records|] == records;
  }

  /** Appends the records for the transfers `found` in the tree of `outer`, adding each amount to the total. */
  method AppendTransfers(outer: Txn, found: seq<AssetTransfer>, records0: seq<Txn>, total0: nat)
    returns (records: seq<Txn>, total: nat)
    requires total0 == TotalAmount(records0)
    ensures records == records0 + StampAll(outer, found)
    ensures total == TotalAmount(records)
  {
    records, total := records0, total0;
    var m := 0;
    while m < |found|
      invariant 0 <= m <= |found|
      invariant records == records0 + StampAll(outer, found[..m])
      invariant total == TotalAmount(records)
    {
      var rewardTx := Stamp(outer, found[m]);
      TotalAmountAppendOne(records, rewardTx);
      assert StampAll(outer, found[..m + 1]) == StampAll(outer, found[..m]) + [rewardTx];
      records := records + [rewardTx];
      total := total + found[m].amount;
      m := m + 1;
    }
    assert found[..m] == found;
  }

  /** Appends the records one top-level transaction yields. */
  method CollectTxn(tx: Txn, target: string, records0: seq<Txn>, total0: nat)
    returns (records: seq<Txn>, total: nat)
    requires total0 == TotalAmount(records0)
    ensures records == records0 + RecordsOfTxn(tx, target)
    ensures total == TotalAmount(records)
  {
    records, total := records0, total0;
    if tx.sender == AlphaRewardsWallet {
      var found := FindUsdcTransfers(tx, target);
      records, total := AppendTransfers(tx, found, records, total);
    } else {
      assert records == records0 + [];
    }
  }

  lemma AppendAssociative(a: seq<Txn>, b: seq<Txn>, c: seq<Txn>)
    ensures (a + b) + c == a + (b + c)
  {
  }

  lemma PageRecordsStep(txs: seq<Txn>, k: nat, target: string)
    requires k < |txs|
    ensures PageRecords(txs[..k + 1], target) == PageRecords(txs[..k], target) + RecordsOfTxn(txs[k], target)
  {
    assert txs[..k + 1][..k] == txs[..k];
  }

  /**
    Processes one page: for each top-level transaction the wallet sent, in
    order, appends a record per transfer found in its tree and adds the
    transfer's amount to the running total.
   */
  method CollectPage(page: Page, target: string, records0: seq<Txn>, total0: nat)
    returns (records: seq<Txn>, total: nat)
    requires total0 == TotalAmount(records0)
    ensures records == records0 + RecordsOfResponse(Fetched(page), target)
    ensures total == TotalAmount(records)
  {
    records, total := records0, total0;
    if page.transactions.Some? {
      var txs := page.transactions.value;
      var k := 0;
      while k < |txs|
        invariant 0 <= k <= |txs|
        invariant records == records0 + PageRecords(txs[..k], target)
        invariant total == TotalAmount(records)
      {
        records, total := CollectTxn(txs[k], target, records, total);
        PageRecordsStep(txs, k, target);
        AppendAssociative(records0, PageRecords(txs[..k], target), RecordsOfTxn(txs[k], target));
        k := k + 1;
      }
      assert txs[..k] == txs;
    }
  }

  lemma AllRecordsStep(responses: seq<FetchResult>, i: nat, target: string)
    requires i < |responses|
    ensures AllRecords(responses[..i + 1], target) == AllRecords(responses[..i], target) + RecordsOfResponse(responses[i], target)
  {
    assert responses[..i + 1][..i] == responses[..i];
  }

  lemma RunEndsOutOfResponses(responses: seq<FetchResult>, target: string)
    requires NoStopBefore(responses, |responses|)
    ensures Expected(responses, target) == OutOfResponses
    ensures FetchCount(responses) == |responses|
  {
    StopIndexNone(responses);
  }

  lemma RunFailsAt(responses: seq<FetchResult>, i: nat, target: string)
    requires i < |responses| && NoStopBefore(responses, i) && responses[i].FetchFailed?
    ensures Expected(responses, target) == Failed(FetchErrorMessage)
    ensures FetchCount(responses) == i + 1
  {
    StopIndexIs(responses, i);
  }

  lemma RunCompletesAt(responses: seq<FetchResult>, i: nat, target: string)
    requires i < |responses| && NoStopBefore(responses, i)
    requires responses[i].Fetched? && !HasMore(responses[i].page)
    ensures Expected(responses, target) == Completed(Summarize(AllRecords(responses[..i + 1], target)))
    ensures FetchCount(responses) == i + 1
  {
    StopIndexIs(responses, i);
  }

  /** Every completed run is consistent and holds only reward records for the target. */
  lemma ExpectedWellFormed(responses: seq<FetchResult>, target: string)
    ensures Expected(responses, target).Completed? ==>
              Consistent(Expected(responses, target).data) &&
              forall k :: 0 <= k < |Expected(responses, target).data.transactions| ==>
                IsRewardRecord(Expected(responses, target).data.transactions[k], target)
  {
    match StopIndex(responses)
    case None =>
    case Some(i) => AllRecordsAreRewardRecords(responses[..i + 1], target);
  }

  /**
    The rewards check for `address` against the indexer's `responses`.
    Returns the outcome and the cursor sent with each page request (`None`
    for the first).
   */
  method CheckRewards(address: string, responses: seq<FetchResult>)
    returns (outcome: Outcome, requests: seq<Option<string>>)
    ensures outcome == Expected(responses, address)
    ensures outcome.Completed? ==>
              Consistent(outcome.data) &&
              forall k :: 0 <= k < |outcome.data.transactions| ==> IsRewardRecord(outcome.data.transactions[k], address)
    ensures outcome.Failed? ==> outcome.message == FetchErrorMessage
    ensures requests == RequestTokens(responses, FetchCount(responses))
  {
    var records: seq<Txn> := [];
    var total: nat := 0;
    var token: Option<string> := None;
    var i := 0;
    requests := [];
    while true
      invariant 0 <= i <= |responses|
      invariant NoStopBefore(responses, i)
      invariant records == AllRecords(responses[..i], address)
      invariant total == TotalAmount(records)
      invariant requests == RequestTokens(responses, i)
      invariant token == if i == 0 then None else TokenOf(responses[i - 1])
      decreases |responses| - i
    {
      if i == |responses| {
        RunEndsOutOfResponses(responses, address);
        outcome := OutOfResponses;
        return;
      }
      requests := requests + [token];
      assert requests == RequestTokens(responses, i + 1);
      match responses[i]
      case FetchFailed(_) =>
        RunFailsAt(responses, i, address);
        outcome := Failed(FetchErrorMessage);
        return;
      case Fetched(page) =>
        records, total := CollectPage(page, address, records, total);
        AllRecordsStep(responses, i, address);
        token := page.nextToken;
        if !HasMore(page) {
          RunCompletesAt(responses, i, address);
          outcome := Completed(RewardsData(total, records, |records|));
          ExpectedWellFormed(responses, address);
          return;
        }
        NoStopBeforeStep(responses, i);
        i := i + 1;
    }
  }
}

=== FILE: transfers.dfy ===
/**
  Extraction of the token transfers to one receiver from a transaction tree.

  The walk visits a transaction before the transactions it issued and those
  in list order (pre-order), and keeps the transfer of every node that moves
  the rewards token to the target. `PreOrder` and `Matches` are the reference
  definition: the flattened tree, filtered.
 */
module Transfers {
  import opened Indexer

  /** A transfer of the rewards token to `target`. */
  predicate IsTransferTo(a: AssetTransfer, target: string) {
    a.assetId == UsdcAssetId && a.receiver == target
  }

  /** A node whose own transfer moves the rewards token to `target`. */
  predicate IsUsdcTransferTo(tx: Txn, target: string) {
    tx.transfer.Some? && IsTransferTo(tx.transfer.value, target)
  }

  /**
    The rewards-token transfers to `target` in the tree below `tx`: the
    node's own transfer first, then those of each inner transaction in order.
   */
  function FindUsdcTransfers(tx: Txn, target: string): (r: seq<AssetTransfer>)
    ensures forall k :: 0 <= k < |r| ==> IsTransferTo(r[k], target)
    ensures IsUsdcTransferTo(tx, target) ==> |r| > 0 && r[0] == tx.transfer.value
    decreases tx, 1
  {
    var own := if IsUsdcTransferTo(tx, target) then [tx.transfer.value] else [];
    own + FindInList(tx.inner, target)
  }

  /** The transfers found in each transaction of `txs`, concatenated in list order. */
  function FindInList(txs: seq<Txn>, target: string): (r: seq<AssetTransfer>)
    ensures forall k :: 0 <= k < |r| ==> IsTransferTo(r[k], target)
    decreases txs, 0
  {
    if |txs| == 0 then [] else FindUsdcTransfers(txs[0], target) + FindInList(txs[1..], target)
  }

  // ---------------------------------------------------------------------------
  // Reference definition: flatten, then filter

  /** Every node of the tree, each once, parent before children. */
  function PreOrder(tx: Txn): (r: seq<Txn>)
    ensures |r| >= 1 && r[0] == tx
    decreases tx, 1
  {
    [tx] + PreOrderList(tx.inner)
  }

  function PreOrderList(txs: seq<Txn>): seq<Txn>
    decreases txs, 0
  {
    if |txs| == 0 then [] else PreOrder(txs[0]) + PreOrderList(txs[1..])
  }

  /** The nodes of `nodes` that transfer the rewards token to `target`, in order. */
  function Matches(nodes: seq<Txn>, target: string): (r: seq<Txn>)
    ensures |r| <= |nodes|
    ensures forall k :: 0 <= k < |r| ==> IsUsdcTransferTo(r[k], target)
  {
    if |nodes| == 0 then []
    else (if IsUsdcTransferTo(nodes[0], target) then [nodes[0]] else []) + Matches(nodes[1..], target)
  }

  /** The transfer parts of matching nodes. */
  function TransfersOf(nodes: seq<Txn>): (r: seq<AssetTransfer>)
    requires forall k :: 0 <= k < |nodes| ==> nodes[k].transfer.Some?
    ensures |r| == |nodes|
    ensures forall k :: 0 <= k < |r| ==> r[k] == nodes[k].transfer.value
  {
    seq(|nodes|, k requires 0 <= k < |nodes| => nodes[k].transfer.value)
  }

  /** `Matches` keeps exactly the matching nodes. */
  lemma {:induction false} MatchesMembership(nodes: seq<Txn>, target: string)
    ensures forall n :: n in Matches(nodes, target) <==> n in nodes && IsUsdcTransferTo(n, target)
    decreases |nodes|
  {
    if |nodes| > 0 {
      MatchesMembership(nodes[1..], target);
      assert nodes == [nodes[0]] + nodes[1..];
    }
  }

  lemma TransfersOfAppend(a: seq<Txn>, b: seq<Txn>)
    requires forall k :: 0 <= k < |a| ==> a[k].transfer.Some?
    requires forall k :: 0 <= k < |b| ==> b[k].transfer.Some?
    ensures TransfersOf(a + b) == TransfersOf(a) + TransfersOf(b)
  {
  }

  lemma {:induction false} MatchesAppend(a: seq<Txn>, b: seq<Txn>, target: string)
    ensures Matches(a + b, target) == Matches(a, target) + Matches(b, target)
    decreases |a|
  {
    if |a| == 0 {
      assert a + b == b;
    } else {
      assert (a + b)[0] == a[0];
      assert (a + b)[1..] == a[1..] + b;
      MatchesAppend(a[1..], b, target);
    }
  }

  /**
    The walk is the reference definition: the transfers of the matching
    nodes of the pre-order flattening, in that order. So each node
    contributes at most once, and nested matches are not skipped.
   */
  lemma {:induction false} FindIsPreOrderMatches(tx: Txn, target: string)
    ensures FindUsdcTransfers(tx, target) == TransfersOf(Matches(PreOrder(tx), target))
    decreases tx, 1
  {
    var own := Matches([tx], target);
    var rest := Matches(PreOrderList(tx.inner), target);
    assert own == (if IsUsdcTransferTo(tx, target) then [tx] else []) + Matches([], target);
    assert TransfersOf(own) == if IsUsdcTransferTo(tx, target) then [tx.transfer.value] else [];
    FindInListIsPreOrderMatches(tx.inner, target);
    MatchesAppend([tx], PreOrderList(tx.inner), target);
    assert Matches(PreOrder(tx), target) == own + rest;
    TransfersOfAppend(own, rest);
  }

  lemma {:induction false} FindInListIsPreOrderMatches(txs: seq<Txn>, target: string)
    ensures FindInList(txs, target) == TransfersOf(Matches(PreOrderList(txs), target))
    decreases txs, 0
  {
    if |txs| > 0 {
      FindIsPreOrderMatches(txs[0], target);
      FindInListIsPreOrderMatches(txs[1..], target);
      var head := Matches(PreOrder(txs[0]), target);
      var tail := Matches(PreOrderList(txs[1..]), target);
      MatchesAppend(PreOrder(txs[0]), PreOrderList(txs[1..]), target);
      assert Matches(PreOrderList(txs), target) == head + tail;
      TransfersOfAppend(head, tail);
    }
  }

  /**
    The number of transfers found equals the number of matching nodes, and
    the walk finds nothing exactly when no node of the tree matches.
   */
  lemma CountIsMatchingNodes(tx: Txn, target: string)
    ensures |FindUsdcTransfers(tx, target)| == |Matches(PreOrder(tx), target)|
    ensures FindUsdcTransfers(tx, target) == [] <==>
              forall n :: n in PreOrder(tx) ==> !IsUsdcTransferTo(n, target)
  {
    FindIsPreOrderMatches(tx, target);
    MatchesMembership(PreOrder(tx), target);
    var m := Matches(PreOrder(tx), target);
    if m != [] {
      assert m[0] in m;
    }
  }

  /**
    A matching transfer anywhere in the tree, however deeply nested, is
    among the transfers found.
   */
  lemma NestedTransferFound(tx: Txn, target: string, n: Txn)
    requires n in PreOrder(tx) && IsUsdcTransferTo(n, target)
    ensures n.transfer.value in FindUsdcTransfers(tx, target)
  {
    FindIsPreOrderMatches(tx, target);
    MatchesMembership(PreOrder(tx), target);
    var m := Matches(PreOrder(tx), target);
    var k :| 0 <= k < |m| && m[k] == n;
    assert TransfersOf(m)[k] == n.transfer.value;
  }
}
